=== FILE: README.md ===
# gha-cargo-upgrade, modelled in Dafny

A model of the GitHub Action that keeps a Rust project's dependencies current.
The action reads its inputs (`readActionConfig`). It then asks `cargo outdated`, per
package or once for the whole manifest, whether something is outdated
(`checkOutdated`), runs `cargo upgrade` for what is, and
(`runUpgrade`, gated on a list of mandatory packages) opens or refreshes a single
pull request whose body explains the bot and reports a failing `cargo check`
(`buildPullRequest`, `main`).

Everything is pure functions over immutable data:

- `cargo` is an oracle `Args -> Run` (exit code and standard output per argument
  vector). Each planner returns a `Trace`: the argument vectors it would run, in order,
  and how it ended.
- `JSON.parse` is an oracle `string -> Option<CrateReport>`.
- The open pull requests, their commit counts, the changed paths reported by the git
  status query and the outcome of `cargo check` are plain inputs.
- JavaScript semantics are written out. `split(',')` never drops pieces (`""` gives
  `[""]`). A template string renders an array comma-joined. An optional package is
  "given" only when it is a non-empty string (truthiness). `?? []` replaces a missing
  list by the empty one.
- The subprocess helper rejects when a command exits non-zero. So a failing
  `cargo outdated` or `cargo upgrade` ends the run with an error (`CommandFailed`).
  Only `cargo check` is caught, and its outcome goes into the body.

Modules: `Wrappers` (Option/Result), `Strings` (split/join), `ActionConfig`, `Cargo`
(oracle, errors, traces), `Outdated` (`checkOutdated`), `Upgrade` (`runUpgrade`),
`PullRequest` (`buildPullRequest` without its I/O), `Workflow` (`main`).

Where the code and its documentation differ, the model follows the code:

- Bulk mode (`checkOutdated()` with no package) looks for a dependency whose name
  equals `undefined`. Every real dependency has a name, so it never reports anything
  outdated, and upgrade-all mode never upgrades. This contradicts the doc comment at
  src/index.ts:51. `BulkCheckNeverOutdated` and `UpgradeAllNeverUpgradesNamedDependencies`
  state this.
- `main` destructures `mandatoryPackages` from the configuration, which has no such
  field (src/read-action-config.ts:3-12). The list is therefore a separate input of the
  planner, and a run takes it as a parameter.
- The non-zero-exit check after `cargo outdated` (src/index.ts:62-64) is never reached,
  because the subprocess helper has already rejected. Either way the outcome is an
  error, modelled as `CommandFailed`.

## Model

| member | source | states |
|---|---|---|
| Strings.Split | src/read-action-config.ts:32 | no piece produced by the comma cut contains a comma |
| Strings.SplitCount | src/read-action-config.ts:32 | the cut yields one more piece than there are separators, so nothing is dropped, even for the empty string |
| Strings.JoinSplit | src/read-action-config.ts:32 | joining the pieces with the separator gives back the original string |
| Strings.SplitJoin | src/read-action-config.ts:38 | cutting a join of separator-free pieces gives back exactly those pieces |
| ActionConfig.ReadActionConfig | src/read-action-config.ts:17-48 | upgrade-all iff the input is exactly `*` (then no packages). Otherwise the packages are the raw comma cut, which joins back to the input. The default branch is used iff none is given. There are no users iff the input is empty. `incompatible` iff the input is `true`. The title is the prefix alone in upgrade-all mode and the prefix, `for ` and the raw input otherwise |
| ActionConfig.PackagesRoundTrip | src/read-action-config.ts:31-32 | re-splitting the joined package list of a selective configuration yields the same list |
| Outdated.OutdatedArgsShape | src/index.ts:56 | `OutdatedArgs`: the check always asks for JSON output and passes `-p pkg` exactly when a non-empty package is given |
| Outdated.FindDependency | src/index.ts:81 | `find` finds nothing iff no dependency has exactly the wanted name. Otherwise it returns the first dependency that does |
| Outdated.CountListing | src/index.ts:80-85 | the reduce counts at most one per report |
| Outdated.CountPositiveIffListed | src/index.ts:80-88 | the count is positive iff some report lists the package, so the answer is "some report lists it" |
| Outdated.NonEmpty | src/index.ts:76 | the filter keeps every non-empty line as often as it occurs and drops every empty one (multisets), in the input's order (a subsequence of it) |
| Outdated.NonEmptyMembers | src/index.ts:76 | the kept lines are exactly the non-empty ones |
| Outdated.OutputLines | src/index.ts:74-76 | the record lines hold no line break and are never empty. They are the non-empty pieces of the output cut at line breaks, each kept as often as it occurs (multisets), in the output's order |
| Outdated.ParseEach | src/index.ts:74-77 | decoding succeeds iff every line decodes, with one report per line in order. Otherwise the error names the first line that does not decode |
| Outdated.CheckOutdated | src/index.ts:54-89 | a non-zero exit is a `CommandFailed` error for the exact check command. The check succeeds iff the run exits 0 and every non-empty output line decodes. On success it answers true iff some decoded report lists the package |
| Outdated.BulkCheckNeverOutdated | src/index.ts:81 | with no package and every decoded dependency named, the check never answers true |
| Upgrade.UpgradeArgsShape | src/index.ts:103-107 | `UpgradeArgs`: a given package is upgraded alone with `--recursive false`, the bulk upgrade is bare `upgrade`, and `--incompatible` is appended iff the flag is set |
| Upgrade.Checks | src/index.ts:122-123 | one outdated check per package, in input order |
| Upgrade.Upgrades | src/index.ts:141-143 | one upgrade command per candidate, in candidate order |
| Upgrade.CollectLoop | src/index.ts:122-128 | the package loop never runs more checks than there are packages |
| Upgrade.CollectOutcome | src/index.ts:122-128 | the loop completes, having checked every package, iff every per-package check succeeds. Otherwise it stops right after the first failing check, with that check's error |
| Upgrade.CollectStep | src/index.ts:125-126 | pushing a reported package that is not yet listed keeps the list a candidate list for the longer input |
| Upgrade.CollectCandidates | src/index.ts:122-128 | the collected list contains exactly the input packages reported outdated, each once, in order of first occurrence |
| Upgrade.CollectedAreReported | src/index.ts:125 | only input packages reported outdated are collected |
| Upgrade.CandidatesUnique | src/index.ts:122-128 | that description determines the list: two lists meeting it are equal |
| Upgrade.PrecedesAsymmetric | src/index.ts:125-126 | two packages cannot each be first-seen before the other |
| Upgrade.UpgradeLoop | src/index.ts:141-144 | the upgrade loop never runs more upgrades than there are candidates |
| Upgrade.UpgradeEachOutcome | src/index.ts:141-144 | the loop upgrades every candidate iff every upgrade exits 0 |
| Upgrade.UpgradeEachFailure | src/index.ts:108 | a failing loop stops right after the first upgrade that exits non-zero, with that command as its error |
| Upgrade.UpgradeAll | src/index.ts:112-120 | exactly one bulk check comes first. A bare upgrade follows iff the check answers true. The answer is the check's, and the run fails iff the check fails or the upgrade exits non-zero |
| Upgrade.SelectiveCheckFailureUpgradesNothing | src/index.ts:122-123 | a failing per-package check ends selective mode with an error before any upgrade: the checks of the input packages run in order and stop right after the first failing check, whose error is the run's |
| Upgrade.MandatoryGateBlocksUpgrades | src/index.ts:132-139 | the gate (`Gated`): when some mandatory package is not a candidate, every package is checked, nothing is upgraded and no pull request is asked for |
| Upgrade.SelectiveUpgradesEachCandidate | src/index.ts:141-154 | past the gate, all checks are followed by one upgrade per candidate, in order. A pull request is asked for iff there was a candidate. A failing upgrade ends the run with that command's error. That upgrade exited non-zero, every upgrade before it passed, and none after it ran |
| Upgrade.UpgradeSelected | src/index.ts:121-152 | a selective run that completes has first checked every package, in order, and asks for a pull request only after at least one upgrade |
| Upgrade.RunUpgrade | src/index.ts:112-152 | `*` mode runs the bulk planner and any other configuration the selective one, both against the checker `checkOutdated` implements |
| Upgrade.SelectiveUpgradesOnlyReportedInputs | src/index.ts:122-144 | every command after the checks upgrades an input package that was reported outdated |
| Upgrade.UpgradeAllNeverUpgradesNamedDependencies | src/index.ts:112-120 | with every decoded dependency named, upgrade-all mode issues only the bulk check and never asks for a pull request |
| PullRequest.FindExisting | src/index.ts:193 | no result iff no open pull request has the branch as head. Otherwise the result is the first that does |
| PullRequest.ChangesetNeverCreatesFiles | src/index.ts:226-237 | the callbacks (`Content`): exactly the reported paths get a callback, and each one answers nothing for a missing file (so no file is created) and that path's disk contents for an existing one |
| PullRequest.FileUpdates | src/index.ts:226-241 | the changeset holds one read-from-disk callback for exactly the changed paths |
| PullRequest.BuildChanges | src/index.ts:213-247 | a missing path list is empty. The changeset covers exactly the reported paths, with the fixed commit message and no empty commit |
| PullRequest.Mentions | src/index.ts:260-262 | one `@user` per user, in order |
| PullRequest.MentionLine | src/index.ts:258-264 | the line is empty iff there are no users. Otherwise it starts with the fixed intro |
| PullRequest.MentionsRoundTrip | src/index.ts:259-262 | cutting the mention line after the intro at commas yields exactly the `@user` tokens, when no user name holds a comma |
| PullRequest.BodyStartsWithTemplate | src/index.ts:249-264 | every body (`PullRequestBody`) opens with the fixed explanation |
| PullRequest.PlainBody | src/index.ts:249-267 | with nobody to notify and a passing check, the body is the explanation alone |
| PullRequest.ErrorSectionIffCheckFailed | src/index.ts:266-275 | the body is the template and the mention line alone iff the check passed, whether or not there are users to notify |
| PullRequest.CheckOutputInBody | src/index.ts:266-275 | after a failed check, the body is the template, the mention line and the error heading, then the captured output verbatim, then the closing fence, each at its offset |
| PullRequest.BuildPullRequest | src/index.ts:193-285 | nothing is published iff the first open pull request on the branch has more than one commit. Otherwise the request carries the configured title and branch, updates in place, is not created when empty, and has the computed body and exactly the changeset of the changed paths |
| Workflow.Publish | src/index.ts:299-302 | a planner error propagates. A "no" runs nothing further and publishes nothing. A "yes" appends the build check and yields exactly the publish step's outcome (`BuildPullRequest` on the configured branch, title and users), so the existing-PR gate and the changeset apply. A published request carries the configured title, branch and body, after the build check |
| Workflow.RunAction | src/index.ts:294-303 | the same, stated for the whole run: configuration, then planner, then, on a "yes", the build check and exactly the request `BuildPullRequest` computes |
| Workflow.MentionsFollowInput | src/read-action-config.ts:26-38 | the body mentions users iff the `notified_users` input is non-empty, and the mentions read back as one `@` token per comma-separated entry of that input |
| Workflow.UpgradeAllPublishesPlainRequest | src/index.ts:294-303 | an upgrade-all run whose bulk check answers true and whose upgrade succeeds, with no pull request open on the branch, nobody to notify and a passing check, issues check, upgrade and build check, and publishes a request titled with the bare prefix whose body is the template |

## Left out

- `checkCargoBinaries` (src/index.ts:16-46): tool installation and version probing is environment set-up with no logic the rest depends on.
- How inputs are fetched (`getInput`, its whitespace trimming and its throw for a missing required input): the model takes the input strings as given, with an absent input as `""`.
- `JSON.parse`: an oracle that either yields a crate report or marks the line malformed. Decoded fields that the code never reads are carried but not validated.
- The hosting-service client: listing open pull requests (pagination included), reading a pull request's commit count, and the create-or-update call itself. The model produces the call's arguments.
- The git status query (`porcelain`): its answer is the `changed` input.
- File reads: the callback's `readFileSync` is the `disk` parameter, and read errors are not modelled.
- Logging (`info`, `error`) and the log line after publishing.
- Asynchrony: every `await` is sequential, so the model is a sequential function.
- The line separator is taken as `"\n"`, the value of `EOL` on the Linux runners the action targets.
- How `cargo check` interleaves standard output and standard error into the captured text: the outcome is the `CheckRun` input.
- What `main` passes as `mandatoryPackages`: the configuration object (src/read-action-config.ts:34-44) has no such key, so `main` as written passes `undefined`, and reading its length (src/index.ts:132) throws in selective mode once the per-package checks finish. The model takes the list as a parameter of the run instead, as the planner's signature intends.
- The tool is assumed deterministic: the oracle gives the same answer every time it gets the same argument vector. A package listed twice is checked twice (src/index.ts:122-126), and the model takes both checks to agree. Every check runs before any upgrade, so nothing changes the manifest in between.
- `manifestPath` is read into the configuration but used nowhere, as in the source.
- Outdated.CountListing: states only the bound on the count. What the count means is stated by `CountPositiveIffListed`.
- Upgrade.CollectLoop: states only the bound on the number of checks. What the loop yields is stated by `CollectOutcome` and `CollectCandidates`.
- Upgrade.UpgradeLoop: states only the bound on the number of upgrades. What the loop yields is stated by `UpgradeEachOutcome` and `UpgradeEachFailure`.

=== FILE: cargo.dfy ===
/** The `cargo` command line as an oracle. Every invocation is an argument vector;
    what the external tool answers is an input to the model, and what the model
    returns includes the argument vectors it would run, in order. */
module Cargo {
  import opened Wrappers

  /** The arguments after `cargo`, e.g. `["upgrade", "--incompatible"]`. */
  type Args = seq<string>

  /** What one invocation produced: its exit code and its captured standard output. */
  datatype Run = Run(exitCode: int, stdout: string)

  /** The answers of the external tool, one per argument vector. */
  type Oracle = Args -> Run

  /** Why a run stops: a command that exited non-zero (the subprocess helper rejects
      on a non-zero exit code), or an output line that is not a crate report. */
  datatype Error = CommandFailed(args: Args) | MalformedLine(line: string)

  /** The commands issued so far and how the step ended. */
  datatype Trace<T> = Trace(commands: seq<Args>, result: Result<T, Error>)

  /** JavaScript truthiness of an optional package name: `undefined` and the empty
      string both count as "no package given". */
  predicate Specified(pkg: Option<string>)
  {
    pkg.Some? && pkg.value != ""
  }
}

=== FILE: config.dfy ===
/** Derivation of the action's configuration from its raw input strings
    (`readActionConfig`). The inputs are taken as the strings the workflow
    supplies; how they are fetched from the environment is not modelled. */
module ActionConfig {
  import opened Strings

  /** Branch used for the bot's pull request when none is configured. */
  const DefaultBranchName: string := "__gha-cargo-upgrade-action"

  /** Fixed start of every pull request title. */
  const TitlePrefix: string := "[BOT] build(cargo): upgrade dependencies "

  /** The raw action inputs, one field per input name. An absent optional input is "". */
  datatype Inputs = Inputs(
    packages: string,
    branchName: string,
    notifiedUsers: string,
    manifestPath: string,
    incompatible: string,
    token: string)

  /** The typed configuration (`UpdateActionConfig`). */
  datatype Config = Config(
    packages: seq<string>,
    upgradeAll: bool,
    branchName: string,
    notifiedUsers: seq<string>,
    manifestPath: string,
    incompatible: bool,
    ghToken: string,
    prTitle: string)

  /** A comma-separated list input, exactly as JavaScript's `split(',')` cuts it. */
  function CommaList(raw: string): seq<string>
  {
    Split(raw, ',')
  }

  function ReadActionConfig(inputs: Inputs): (c: Config)
    // "*" alone selects upgrade-all mode, which carries no package list
    ensures c.upgradeAll <==> inputs.packages == "*"
    ensures c.upgradeAll ==> c.packages == []
    // otherwise the list is the raw input cut at commas: nothing trimmed, dropped or merged
    ensures !c.upgradeAll ==>
              && |c.packages| >= 1
              && (forall i :: 0 <= i < |c.packages| ==> ',' !in c.packages[i])
              && Join(c.packages, ',') == inputs.packages
    ensures inputs.branchName != "" ==> c.branchName == inputs.branchName
    ensures inputs.branchName == "" ==> c.branchName == DefaultBranchName
    ensures c.branchName != ""
    // no users for an empty input; otherwise the comma-cut of the input
    ensures c.notifiedUsers == [] <==> inputs.notifiedUsers == ""
    ensures inputs.notifiedUsers != "" ==>
              && (forall i :: 0 <= i < |c.notifiedUsers| ==> ',' !in c.notifiedUsers[i])
              && Join(c.notifiedUsers, ',') == inputs.notifiedUsers
    ensures c.incompatible <==> inputs.incompatible == "true"
    ensures c.ghToken == inputs.token
    ensures c.manifestPath == inputs.manifestPath
    // the title names the raw package input unless every package is upgraded
    ensures c.upgradeAll ==> c.prTitle == TitlePrefix
    ensures !c.upgradeAll ==> c.prTitle == TitlePrefix + "for " + inputs.packages
  {
    JoinSplit(inputs.packages, ',');
    JoinSplit(inputs.notifiedUsers, ',');
    var upgradeAll := inputs.packages == "*";
    Config(
      packages := if upgradeAll then [] else CommaList(inputs.packages),
      upgradeAll := upgradeAll,
      branchName := if inputs.branchName != "" then inputs.branchName else DefaultBranchName,
      notifiedUsers := if inputs.notifiedUsers != "" then CommaList(inputs.notifiedUsers) else [],
      manifestPath := inputs.manifestPath,
      incompatible := inputs.incompatible == "true",
      ghToken := inputs.token,
      prTitle := TitlePrefix + (if upgradeAll then "" else "for " + inputs.packages))
  }

  /** The package list of a selective configuration is recovered by splitting the
      joined list again: the comma-cut loses nothing and invents nothing. */
  lemma PackagesRoundTrip(inputs: Inputs)
    requires inputs.packages != "*"
    ensures CommaList(Join(ReadActionConfig(inputs).packages, ',')) == ReadActionConfig(inputs).packages
  {
    var c := ReadActionConfig(inputs);
    SplitJoin(c.packages, ',');
  }
}

=== FILE: outdated.dfy ===
/** The outdated predicate (`checkOutdated`): run `cargo outdated` and decide from its
    JSON-lines output whether the target package is listed as a dependency. */
module Outdated {
  import opened Wrappers
  import opened Strings
  import opened Cargo

  /** One entry of a report's `dependencies` array; `name` is `None` when the entry
      has no name field. The version fields are carried but never consulted. */
  datatype Dependency = Dependency(name: Option<string>, project: string, latest: string, compat: string)

  /** One JSON object of the output: a crate and its outdated dependencies. */
  datatype CrateReport = CrateReport(crateName: string, dependencies: seq<Dependency>)

  /** The JSON decoder, as an oracle: `None` for a line that is not a crate report. */
  type Parser = string -> Option<CrateReport>

  /** `outdated [-p pkg] --format=json`, with `-p` only for a specified package. */
  function OutdatedArgs(pkg: Option<string>): Args
  {
    if Specified(pkg) then ["outdated", "-p", pkg.value, "--format=json"] else ["outdated", "--format=json"]
  }

  /** The check always asks for JSON output, and names the package only when one is given. */
  lemma OutdatedArgsShape(pkg: Option<string>)
    ensures var args := OutdatedArgs(pkg);
            && |args| == (if Specified(pkg) then 4 else 2)
            && args[0] == "outdated" && args[|args| - 1] == "--format=json"
            && (Specified(pkg) ==> args[1] == "-p" && args[2] == pkg.value)
  {
  }

  /** Whether `report` lists a dependency named exactly `pkg` (for `None`: one with no name). */
  predicate Lists(report: CrateReport, pkg: Option<string>)
  {
    exists j :: 0 <= j < |report.dependencies| && report.dependencies[j].name == pkg
  }

  /** The first dependency whose name is `pkg`, as `Array.prototype.find` returns it. */
  function FindDependency(deps: seq<Dependency>, pkg: Option<string>): (r: Option<Dependency>)
    ensures r.None? <==> forall j :: 0 <= j < |deps| ==> deps[j].name != pkg
    ensures r.Some? ==>
              exists j :: 0 <= j < |deps| && deps[j] == r.value && r.value.name == pkg
                          && forall k :: 0 <= k < j ==> deps[k].name != pkg
  {
    if |deps| == 0 then None
    else if deps[0].name == pkg then Some(deps[0])
    else
      var r := FindDependency(deps[1..], pkg);
      assert forall j :: 1 <= j < |deps| ==> deps[j] == deps[1..][j - 1];
      r
  }

  /** The number of reports in which `find` succeeds, accumulated left to right as
      the source's `reduce` does. */
  function CountListing(reports: seq<CrateReport>, pkg: Option<string>): (n: nat)
    ensures n <= |reports|
  {
    if |reports| == 0 then 0
    else
      var last := reports[|reports| - 1];
      CountListing(reports[..|reports| - 1], pkg) + (if FindDependency(last.dependencies, pkg).Some? then 1 else 0)
  }

  /** The count is positive exactly when some report lists the package. */
  lemma {:induction false} CountPositiveIffListed(reports: seq<CrateReport>, pkg: Option<string>)
    ensures CountListing(reports, pkg) > 0 <==> exists i :: 0 <= i < |reports| && Lists(reports[i], pkg)
    decreases |reports|
  {
    if |reports| > 0 {
      var init := reports[..|reports| - 1];
      CountPositiveIffListed(init, pkg);
      if CountListing(reports, pkg) > 0 {
        if CountListing(init, pkg) > 0 {
          var i :| 0 <= i < |init| && Lists(init[i], pkg);
          assert reports[i] == init[i];
        } else {
          assert Lists(reports[|reports| - 1], pkg);
        }
      } else {
        forall i | 0 <= i < |reports|
          ensures !Lists(reports[i], pkg)
        {
          if i < |init| {
            assert reports[i] == init[i];
          }
        }
      }
    }
  }

  /** Whether `a` is `b` with some elements left out, the rest kept in order. */
  predicate IsSubsequence(a: seq<string>, b: seq<string>)
    decreases |b|
  {
    |a| == 0 || (|b| > 0 && if a[0] == b[0] then IsSubsequence(a[1..], b[1..]) else IsSubsequence(a, b[1..]))
  }

  /** The non-empty lines, in order (`filter((x) => x)`): every non-empty line is kept
      as often as it occurs, every empty one is dropped, and the order is the input's. */
  function NonEmpty(lines: seq<string>): (r: seq<string>)
    ensures multiset(r) == multiset(lines)["" := 0]
    ensures IsSubsequence(r, lines)
  {
    if |lines| == 0 then []
    else
      var rest := NonEmpty(lines[1..]);
      assert lines == [lines[0]] + lines[1..];
      if lines[0] == "" then
        assert "" !in rest by {
          assert multiset(rest)[""] == 0;
        }
        rest
      else
        [lines[0]] + rest
  }

  /** The kept lines are exactly the non-empty ones. */
  lemma NonEmptyMembers(lines: seq<string>)
    ensures forall l :: l in NonEmpty(lines) <==> l in lines && l != ""
  {
    var r := NonEmpty(lines);
    forall l
      ensures l in r <==> l in lines && l != ""
    {
      assert l in r <==> multiset(r)[l] > 0;
      assert l in lines <==> multiset(lines)[l] > 0;
    }
  }

  /** The lines of standard output that hold a record: the output cut at line breaks,
      empty lines dropped, the rest kept in order. */
  function OutputLines(stdout: string): (lines: seq<string>)
    ensures forall l :: l in lines ==> l != "" && '\n' !in l
    ensures forall l :: l in Split(stdout, '\n') && l != "" ==> l in lines
    ensures IsSubsequence(lines, Split(stdout, '\n'))
    ensures multiset(lines) == multiset(Split(stdout, '\n'))["" := 0]
  {
    NonEmptyMembers(Split(stdout, '\n'));
    NonEmpty(Split(stdout, '\n'))
  }

  /** Decodes every line in order; the first line that does not decode stops it. */
  function ParseEach(lines: seq<string>, parse: Parser): (r: Result<seq<CrateReport>, Error>)
    ensures r.Success? <==> forall i :: 0 <= i < |lines| ==> parse(lines[i]).Some?
    ensures r.Success? ==>
              && |r.value| == |lines|
              && forall i :: 0 <= i < |lines| ==> parse(lines[i]) == Some(r.value[i])
    ensures r.Failure? ==>
              exists i :: 0 <= i < |lines| && parse(lines[i]).None? && r.error == MalformedLine(lines[i])
                          && forall k :: 0 <= k < i ==> parse(lines[k]).Some?
  {
    if |lines| == 0 then Success([])
    else match parse(lines[0])
      case None => Failure(MalformedLine(lines[0]))
      case Some(report) =>
        var rest := ParseEach(lines[1..], parse);
        if rest.Failure? then
          assert forall i :: 1 <= i < |lines| ==> lines[i] == lines[1..][i - 1];
          rest
        else
          Success([report] + rest.value)
  }

  /** Whether `pkg` is outdated: the run must succeed, every non-empty output line
      must decode, and the answer is whether any decoded report lists `pkg`. */
  function CheckOutdated(pkg: Option<string>, run: Run, parse: Parser): (r: Result<bool, Error>)
    ensures run.exitCode != 0 ==> r == Failure(CommandFailed(OutdatedArgs(pkg)))
    ensures r.Success? <==> run.exitCode == 0 && forall l :: l in OutputLines(run.stdout) ==> parse(l).Some?
    ensures r.Success? ==>
              (r.value <==> exists l :: l in OutputLines(run.stdout) && parse(l).Some? && Lists(parse(l).value, pkg))
  {
    if run.exitCode != 0 then Failure(CommandFailed(OutdatedArgs(pkg)))
    else
      var lines := OutputLines(run.stdout);
      match ParseEach(lines, parse)
      case Failure(e) =>
        Failure(e)
      case Success(reports) =>
        CountPositiveIffListed(reports, pkg);
        assert forall l :: l in lines ==> parse(l).Some?;
        assert (exists i :: 0 <= i < |reports| && Lists(reports[i], pkg))
           <==> (exists l :: l in lines && parse(l).Some? && Lists(parse(l).value, pkg));
        Success(CountListing(reports, pkg) > 0)
  }

  /** Bulk mode (no package) looks for a dependency with no name. When every decoded
      dependency has a name, as every real one does, bulk mode never reports
      anything outdated, whatever the tool prints. */
  lemma BulkCheckNeverOutdated(run: Run, parse: Parser)
    requires forall l :: l in OutputLines(run.stdout) && parse(l).Some? ==>
               forall d :: d in parse(l).value.dependencies ==> d.name.Some?
    ensures CheckOutdated(None, run, parse) != Success(true)
  {
  }
}

=== FILE: pull_request.dfy ===
/** The publish step (`buildPullRequest`) without its I/O: the existing-PR gate, the
    changeset, and the pull request body. The open pull requests, their commit
    counts, the changed paths and the outcome of `cargo check` are inputs. */
module PullRequest {
  import opened Wrappers
  import opened Strings

  /** An open pull request as listed by the hosting service. */
  datatype OpenPullRequest = OpenPullRequest(number: int, headRef: string)

  /** The outcome of `cargo check`: whether it succeeded, and its captured output. */
  datatype CheckRun = CheckRun(succeeded: bool, output: string)

  /** The callback the changeset holds for one path: asked whether the file exists,
      it answers with the file's content read from disk, or with nothing. */
  datatype FileUpdate = ReadFromDisk(path: string)

  /** The changeset handed to the publishing library. */
  datatype Changes = Changes(files: map<string, FileUpdate>, commit: string, emptyCommit: bool)

  /** The arguments of the single create-or-update call (repository coordinates aside). */
  datatype PublishRequest = PublishRequest(
    title: string,
    body: string,
    head: string,
    update: bool,
    createWhenEmpty: bool,
    changes: Changes)

  const CommitMessage: string := "build(cargo): update dependencies"

  /** The fixed explanation every body starts with. */
  const BodyTemplate: string :=
    "Hello! This is a friendly bot trying to update some of the dependencies in this repository.\n"
    + "\n"
    + "  This PR is result of running bots for you.\n"
    + "  If there are new updates, this PR will try to replace existing commit with new ones.\n"
    + "  Unfortunately it cannot resolve conflicts, or resolve breaking changes automatically.\n"
    + "  If it happens, please try to resolve it manually.\n"
    + "\n"
    + "  You can add new commits on top of this PR to do so. Then bot will not try to update PR and let you resolve it.\n"
    + "\n"
    + "  "

  const MentionIntro: string := "Bot could see there are some users may check on this PR, so mentioned in here: "

  const ErrorIntro: string :=
    "\n\n  It Looks like there were some errors while trying to upgrade dependencies. Please check below error message:\n\n  ```\n  "

  const ErrorOutro: string := "\n  ```\n  "

  /** The first open pull request whose head branch is `branch` (`find`). */
  function FindExisting(prs: seq<OpenPullRequest>, branch: string): (r: Option<OpenPullRequest>)
    ensures r.None? <==> forall i :: 0 <= i < |prs| ==> prs[i].headRef != branch
    ensures r.Some? ==>
              exists i :: 0 <= i < |prs| && prs[i] == r.value && r.value.headRef == branch
                          && forall j :: 0 <= j < i ==> prs[j].headRef != branch
  {
    if |prs| == 0 then None
    else if prs[0].headRef == branch then
      Some(prs[0])
    else
      var r := FindExisting(prs[1..], branch);
      assert forall i :: 1 <= i < |prs| ==> prs[i] == prs[1..][i - 1];
      r
  }

  /** What the callback for `update` hands the library, given whether the file exists
      and the disk's contents: nothing for a missing file, so it is never created. */
  function Content(update: FileUpdate, fileExists: bool, disk: string -> string): Option<string>
  {
    if !fileExists then None else Some(disk(update.path))
  }

  /** One callback per changed path, accumulated left to right as `reduce` does. */
  function FileUpdates(paths: seq<string>): (files: map<string, FileUpdate>)
    ensures files.Keys == set p | p in paths
    ensures forall p :: p in files ==> files[p] == ReadFromDisk(p)
  {
    if |paths| == 0 then map[]
    else
      var last := paths[|paths| - 1];
      var files := FileUpdates(paths[..|paths| - 1]);
      assert paths == paths[..|paths| - 1] + [last];
      files[last := ReadFromDisk(last)]
  }

  /** The changeset for the changed paths the status query reported (none if it
      reported nothing at all). */
  function BuildChanges(changed: Option<seq<string>>): (c: Changes)
    ensures c.files.Keys == set p | p in changed.Coalesce([])
    ensures forall p :: p in c.files ==> c.files[p] == ReadFromDisk(p)
    ensures c.commit == CommitMessage && !c.emptyCommit
  {
    Changes(FileUpdates(changed.Coalesce([])), CommitMessage, false)
  }

  /** For every changed path, the changeset's callback never creates the file: it
      answers nothing when the file is missing, and the file's own disk contents when
      it exists. Paths that were not reported have no callback. */
  lemma ChangesetNeverCreatesFiles(changed: Option<seq<string>>, path: string, disk: string -> string)
    ensures var files := BuildChanges(changed).files;
            && (path in files <==> path in changed.Coalesce([]))
            && (path in files ==>
                  && Content(files[path], false, disk) == None
                  && Content(files[path], true, disk) == Some(disk(path)))
  {
  }

  /** `@user` for every user, in order. */
  function Mentions(users: seq<string>): (tokens: seq<string>)
    ensures |tokens| == |users|
    ensures forall i :: 0 <= i < |users| ==> tokens[i] == "@" + users[i]
  {
    if |users| == 0 then [] else ["@" + users[0]] + Mentions(users[1..])
  }

  /** The mention line: empty without users, otherwise the intro and the mentions
      joined by commas (how an array renders inside a template string). */
  function MentionLine(users: Option<seq<string>>): (line: string)
    ensures line == "" <==> users.None? || |users.value| == 0
    ensures line != "" ==> |line| >= |MentionIntro| && line[..|MentionIntro|] == MentionIntro
  {
    if users.Some? && |users.value| > 0 then MentionIntro + Join(Mentions(users.value), ',') else ""
  }

  /** The body: the template, the mention line, and the error section when the check failed. */
  function PullRequestBody(users: Option<seq<string>>, check: CheckRun): string
  {
    var base := BodyTemplate + MentionLine(users);
    if check.succeeded then base else base + ErrorIntro + check.output + ErrorOutro
  }

  /** The publish step: skip when the first open pull request on the branch has more
      than one commit (someone else has worked on it); otherwise build the request. */
  function BuildPullRequest(branchName: string, prTitle: string, users: Option<seq<string>>, check: CheckRun,
                            openPrs: seq<OpenPullRequest>, commits: int -> int, changed: Option<seq<string>>)
    : (r: Option<PublishRequest>)
    ensures r.None? <==>
              exists i :: 0 <= i < |openPrs| && openPrs[i].headRef == branchName
                          && (forall j :: 0 <= j < i ==> openPrs[j].headRef != branchName)
                          && commits(openPrs[i].number) > 1
    ensures r.Some? ==>
              && r.value.title == prTitle
              && r.value.head == branchName
              && r.value.update
              && !r.value.createWhenEmpty
              && r.value.body == PullRequestBody(users, check)
              && r.value.changes == BuildChanges(changed)
  {
    var existing := FindExisting(openPrs, branchName);
    if existing.Some? && commits(existing.value.number) > 1 then None
    else Some(PublishRequest(prTitle, PullRequestBody(users, check), branchName, true, false, BuildChanges(changed)))
  }

  /** The mentions can be read back from the body: after the intro, splitting at commas
      yields exactly `@user` per user, provided no user name holds a comma (true of
      every list the configuration produces). */
  lemma MentionsRoundTrip(users: seq<string>)
    requires |users| > 0
    requires forall i :: 0 <= i < |users| ==> ',' !in users[i]
    ensures Split(MentionLine(Some(users))[|MentionIntro|..], ',') == Mentions(users)
  {
    var tokens := Mentions(users);
    forall i | 0 <= i < |tokens|
      ensures ',' !in tokens[i]
    {
      assert tokens[i] == "@" + users[i];
    }
    assert MentionLine(Some(users))[|MentionIntro|..] == Join(tokens, ',');
    SplitJoin(tokens, ',');
  }

  /** Every body opens with the fixed template. */
  lemma BodyStartsWithTemplate(users: Option<seq<string>>, check: CheckRun)
    ensures exists rest :: PullRequestBody(users, check) == BodyTemplate + rest
  {
    var mentions := MentionLine(users);
    if check.succeeded {
      assert PullRequestBody(users, check) == BodyTemplate + mentions;
    } else {
      var section := ErrorIntro + check.output + ErrorOutro;
      RegroupTail(BodyTemplate, mentions, ErrorIntro, check.output, ErrorOutro);
      assert PullRequestBody(users, check) == BodyTemplate + (mentions + section);
    }
  }

  /** Regrouping a five-part concatenation around its first part. */
  lemma RegroupTail(a: string, b: string, c: string, d: string, e: string)
    ensures a + b + c + d + e == a + (b + (c + d + e))
  {
  }

  /** The error section is added exactly when the check failed: a passing check leaves
      the body as the template and the mention line, and a failing one makes it longer. */
  lemma ErrorSectionIffCheckFailed(users: Option<seq<string>>, check: CheckRun)
    ensures PullRequestBody(users, check) == BodyTemplate + MentionLine(users) <==> check.succeeded
  {
    if !check.succeeded {
      var base := BodyTemplate + MentionLine(users);
      assert |PullRequestBody(users, check)| == |base| + |ErrorIntro| + |check.output| + |ErrorOutro|;
      assert |ErrorOutro| > 0;
    }
  }

  /** With nobody to notify and a passing check, the body is the template alone. */
  lemma PlainBody(users: Option<seq<string>>, check: CheckRun)
    requires users.None? || |users.value| == 0
    requires check.succeeded
    ensures PullRequestBody(users, check) == BodyTemplate
  {
    ErrorSectionIffCheckFailed(users, check);
    assert BodyTemplate + "" == BodyTemplate;
  }

  /** The body of a failed check reads: the template, the mention line, the error
      heading, then the captured check output verbatim, then the closing fence. */
  lemma CheckOutputInBody(users: Option<seq<string>>, check: CheckRun)
    requires !check.succeeded
    ensures var head := BodyTemplate + MentionLine(users) + ErrorIntro;
            var body := PullRequestBody(users, check);
            && |body| == |head| + |check.output| + |ErrorOutro|
            && body[..|head|] == head
            && body[|head|..|head| + |check.output|] == check.output
            && body[|head| + |check.output|..] == ErrorOutro
  {
    var head := BodyTemplate + MentionLine(users) + ErrorIntro;
    assert PullRequestBody(users, check) == head + check.output + ErrorOutro;
    ThreeParts(head, check.output, ErrorOutro);
  }

  /** The parts of a three-part concatenation are found at their offsets. */
  lemma ThreeParts(a: string, b: string, c: string)
    ensures var s := a + b + c;
            && |s| == |a| + |b| + |c|
            && s[..|a|] == a && s[|a|..|a| + |b|] == b && s[|a| + |b|..] == c
  {
  }
}

=== FILE: strings.dfy ===
/** Splitting and joining strings on a one-character separator, with the meaning
    JavaScript gives `String.prototype.split(",")` and `Array.prototype.join(",")`. */
module Strings {

  /** Splits `s` at every occurrence of `sep`. As in JavaScript, the empty string
      yields one empty piece, and adjacent separators yield an empty piece between
      them: nothing is trimmed and nothing is dropped. */
  function Split(s: string, sep: char): (pieces: seq<string>)
    ensures forall i :: 0 <= i < |pieces| ==> sep !in pieces[i]
    decreases |s|
  {
    if |s| == 0 then [""]
    else
      var rest := Split(s[1..], sep);
      if s[0] == sep then [""] + rest
      else [[s[0]] + rest[0]] + rest[1..]
  }

  /** A string with `n` separators splits into `n + 1` pieces. */
  lemma {:induction false} SplitCount(s: string, sep: char)
    ensures |Split(s, sep)| == multiset(s)[sep] + 1
    decreases |s|
  {
    if |s| > 0 {
      SplitCount(s[1..], sep);
      assert s == [s[0]] + s[1..];
      assert multiset(s) == multiset([s[0]]) + multiset(s[1..]);
    }
  }

  /** Concatenates `pieces` with `sep` between neighbours. */
  function Join(pieces: seq<string>, sep: char): string
  {
    if |pieces| == 0 then ""
    else if |pieces| == 1 then pieces[0]
    else pieces[0] + [sep] + Join(pieces[1..], sep)
  }

  /** Joining the pieces of a split gives back the original string. */
  lemma {:induction false} JoinSplit(s: string, sep: char)
    ensures Join(Split(s, sep), sep) == s
    decreases |s|
  {
    if |s| > 0 {
      var rest := Split(s[1..], sep);
      JoinSplit(s[1..], sep);
      assert s == [s[0]] + s[1..];
      if s[0] == sep {
        assert Split(s, sep) == [""] + rest;
        JoinCons("", rest, sep);
      } else {
        assert Split(s, sep) == [[s[0]] + rest[0]] + rest[1..];
        JoinGlue(s[0], rest, sep);
      }
    }
  }

  lemma JoinCons(x: string, rest: seq<string>, sep: char)
    requires |rest| >= 1
    ensures Join([x] + rest, sep) == x + [sep] + Join(rest, sep)
  {
    assert ([x] + rest)[1..] == rest;
  }

  /** Gluing a character onto the first piece glues it onto the join. */
  lemma JoinGlue(c: char, rest: seq<string>, sep: char)
    requires |rest| >= 1
    ensures Join([[c] + rest[0]] + rest[1..], sep) == [c] + Join(rest, sep)
  {
    var glued := [[c] + rest[0]] + rest[1..];
    if |rest| > 1 {
      assert glued[1..] == rest[1..];
      assert Join(rest, sep) == rest[0] + [sep] + Join(rest[1..], sep);
    }
  }

  /** A separator-free prefix stays glued to the first piece of what follows it. */
  lemma {:induction false} SplitGluesPrefix(w: string, t: string, sep: char)
    requires sep !in w
    ensures Split(w + t, sep) == [w + Split(t, sep)[0]] + Split(t, sep)[1..]
    decreases |w|
  {
    if |w| > 0 {
      var pieces := Split(t, sep);
      SplitGluesPrefix(w[1..], t, sep);
      var rest := Split(w[1..] + t, sep);
      assert rest == [w[1..] + pieces[0]] + pieces[1..];
      assert (w + t)[0] == w[0] && w[0] != sep;
      assert (w + t)[1..] == w[1..] + t;
      assert Split(w + t, sep) == [[w[0]] + rest[0]] + rest[1..];
      assert [w[0]] + (w[1..] + pieces[0]) == w + pieces[0];
    } else {
      var pieces := Split(t, sep);
      assert w + t == t;
      assert w + pieces[0] == pieces[0];
      assert pieces == [pieces[0]] + pieces[1..];
    }
  }

  /** Splitting a join gives back the pieces, provided none of them contains the
      separator (and there is at least one piece, as `Split` never returns none). */
  lemma {:induction false} SplitJoin(pieces: seq<string>, sep: char)
    requires |pieces| >= 1
    requires forall i :: 0 <= i < |pieces| ==> sep !in pieces[i]
    ensures Split(Join(pieces, sep), sep) == pieces
    decreases |pieces|
  {
    if |pieces| == 1 {
      SplitGluesPrefix(pieces[0], "", sep);
      assert pieces[0] + "" == pieces[0];
    } else {
      var tail := Join(pieces[1..], sep);
      SplitJoin(pieces[1..], sep);
      assert ([sep] + tail)[1..] == tail;
      assert Split([sep] + tail, sep) == [""] + pieces[1..];
      assert pieces[0] + [sep] + tail == pieces[0] + ([sep] + tail);
      SplitGluesPrefix(pieces[0], [sep] + tail, sep);
      assert pieces[0] + "" == pieces[0];
      assert ([""] + pieces[1..])[1..] == pieces[1..];
    }
  }

}

=== FILE: upgrade.dfy ===
/** The upgrade planner (`runUpgrade` and its `upgrade` helper). Given the answers of
    `cargo` as an oracle, it yields the `cargo` commands the planner would run, in
    order, and whether a pull request should follow. */
module Upgrade {
  import opened Wrappers
  import opened Cargo
  import opened Outdated

  /** `upgrade -p pkg --recursive false` for a specified package, bare `upgrade`
      otherwise, with `--incompatible` appended when the flag is set. */
  function UpgradeArgs(pkg: Option<string>, incompatible: bool): Args
  {
    var base := if Specified(pkg) then ["upgrade", "-p", pkg.value, "--recursive", "false"] else ["upgrade"];
    if incompatible then base + ["--incompatible"] else base
  }

  /** A specified package is upgraded on its own, without following its dependents;
      `--incompatible` is passed exactly when the flag is set. */
  lemma UpgradeArgsShape(pkg: Option<string>, incompatible: bool)
    ensures var args := UpgradeArgs(pkg, incompatible);
            && |args| == (if Specified(pkg) then 5 else 1) + (if incompatible then 1 else 0)
            && args[0] == "upgrade"
            && (Specified(pkg) ==> args[1..5] == ["-p", pkg.value, "--recursive", "false"])
            && (incompatible <==> args[|args| - 1] == "--incompatible")
  {
  }

  /** The answers of the outdated check, one per target; `None` is the bulk check. */
  type Checker = Option<string> -> Result<bool, Error>

  /** The checker `checkOutdated` implements on top of the tool's answers;
      `Outdated.CheckOutdated` states what it answers. */
  function OutdatedChecker(cargo: Oracle, parse: Parser): Checker
  {
    pkg => CheckOutdated(pkg, cargo(OutdatedArgs(pkg)), parse)
  }

  /** Whether the checker reports `pkg` outdated. */
  predicate Reported(pkg: string, outdated: Checker)
  {
    outdated(Some(pkg)) == Success(true)
  }

  /** Whether every per-package check of `packages` completes. */
  predicate ChecksPass(packages: seq<string>, outdated: Checker)
  {
    forall i :: 0 <= i < |packages| ==> outdated(Some(packages[i])).Success?
  }

  /** One outdated check per package, in order. */
  function Checks(packages: seq<string>): (commands: seq<Args>)
    ensures |commands| == |packages|
    ensures forall i :: 0 <= i < |packages| ==> commands[i] == OutdatedArgs(Some(packages[i]))
  {
    if |packages| == 0 then []
    else Checks(packages[..|packages| - 1]) + [OutdatedArgs(Some(packages[|packages| - 1]))]
  }

  /** One upgrade per candidate, in order. */
  function Upgrades(candidates: seq<string>, incompatible: bool): (commands: seq<Args>)
    ensures |commands| == |candidates|
    ensures forall i :: 0 <= i < |candidates| ==> commands[i] == UpgradeArgs(Some(candidates[i]), incompatible)
  {
    if |candidates| == 0 then []
    else Upgrades(candidates[..|candidates| - 1], incompatible) + [UpgradeArgs(Some(candidates[|candidates| - 1]), incompatible)]
  }

  predicate NoDuplicates(s: seq<string>)
  {
    forall i, j :: 0 <= i < j < |s| ==> s[i] != s[j]
  }

  /** Every occurrence of `b` in `packages` comes after some occurrence of `a`. */
  ghost predicate Precedes(packages: seq<string>, a: string, b: string)
  {
    forall k :: 0 <= k < |packages| && packages[k] == b ==> a in packages[..k]
  }

  /** The elements of `c` appear in `packages` in the order of their first occurrences. */
  ghost predicate FirstOccurrenceOrder(c: seq<string>, packages: seq<string>)
  {
    forall i, j :: 0 <= i < j < |c| ==> Precedes(packages, c[i], c[j])
  }

  /** The selective candidate list: the input packages the checker reports outdated,
      each once, in order of first occurrence. */
  ghost predicate CandidatesOf(c: seq<string>, packages: seq<string>, outdated: Checker)
  {
    && NoDuplicates(c)
    && (forall p :: p in c <==> p in packages && Reported(p, outdated))
    && FirstOccurrenceOrder(c, packages)
  }

  /** How far a loop got: the number of commands it issued, and what it yielded. */
  datatype Progress<T> = Progress(steps: nat, result: Result<T, Error>)

  /** The loop of the selective planner: the per-package checks of `packages`, in
      order, collecting every package reported outdated that is not yet collected; the
      first check that fails stops the loop. */
  function CollectLoop(packages: seq<string>, outdated: Checker): (p: Progress<seq<string>>)
    ensures p.steps <= |packages|
    decreases |packages|
  {
    if |packages| == 0 then Progress(0, Success([]))
    else
      var n := |packages| - 1;
      var before := CollectLoop(packages[..n], outdated);
      if before.result.Failure? then before
      else
        var pkg := packages[n];
        match outdated(Some(pkg))
        case Failure(e) => Progress(n + 1, Failure(e))
        case Success(answer) =>
          var found := before.result.value;
          Progress(n + 1, Success(if answer && pkg !in found then found + [pkg] else found))
  }

  /** The commands of the loop: the checks it got through. `CollectOutcome` and
      `CollectCandidates` state how it ends and what it collects. */
  function Collect(packages: seq<string>, outdated: Checker): Trace<seq<string>>
  {
    var p := CollectLoop(packages, outdated);
    Trace(Checks(packages[..p.steps]), p.result)
  }

  /** The loop completes, having checked every package, exactly when every check does;
      otherwise it stops right after the first failing check, with that check's error. */
  lemma {:induction false} CollectOutcome(packages: seq<string>, outdated: Checker)
    ensures var p := CollectLoop(packages, outdated);
            && (p.result.Success? <==> ChecksPass(packages, outdated))
            && (p.result.Success? ==> p.steps == |packages|)
            && (p.result.Failure? ==>
                  && 0 < p.steps
                  && ChecksPass(packages[..p.steps - 1], outdated)
                  && outdated(Some(packages[p.steps - 1])) == Failure(p.result.error))
    decreases |packages|
  {
    if |packages| > 0 {
      var n := |packages| - 1;
      var init := packages[..n];
      CollectOutcome(init, outdated);
      var before := CollectLoop(init, outdated);
      if before.result.Failure? {
        assert init[..before.steps - 1] == packages[..before.steps - 1];
        assert init[before.steps - 1] == packages[before.steps - 1];
      } else {
        assert packages[..n] == init;
        assert packages == init + [packages[n]];
      }
    }
  }

  /** What the loop completes with is the candidate list of its input. */
  lemma {:induction false} CollectCandidates(packages: seq<string>, outdated: Checker)
    requires CollectLoop(packages, outdated).result.Success?
    ensures CandidatesOf(CollectLoop(packages, outdated).result.value, packages, outdated)
    decreases |packages|
  {
    if |packages| > 0 {
      var n := |packages| - 1;
      var init := packages[..n];
      CollectCandidates(init, outdated);
      assert packages == init + [packages[n]];
      CollectStep(CollectLoop(init, outdated).result.value, init, packages[n], outdated);
    }
  }

  /** One step of `Collect`: appending the next package when it is reported and new
      keeps the list a candidate list for the longer input. */
  lemma CollectStep(found: seq<string>, init: seq<string>, pkg: string, outdated: Checker)
    requires CandidatesOf(found, init, outdated)
    requires outdated(Some(pkg)).Success?
    ensures CandidatesOf(if Reported(pkg, outdated) && pkg !in found then found + [pkg] else found,
                         init + [pkg], outdated)
  {
    var packages := init + [pkg];
    var next := if Reported(pkg, outdated) && pkg !in found then found + [pkg] else found;
    forall a, b | a in init && Precedes(init, a, b)
      ensures Precedes(packages, a, b)
    {
      forall k | 0 <= k < |packages| && packages[k] == b
        ensures a in packages[..k]
      {
        if k < |init| {
          assert packages[..k] == init[..k];
        } else {
          assert init == packages[..k];
        }
      }
    }
    if Reported(pkg, outdated) && pkg !in found {
      assert pkg !in init;
      forall i, j | 0 <= i < j < |next|
        ensures Precedes(packages, next[i], next[j])
      {
        if j == |found| {
          forall k | 0 <= k < |packages| && packages[k] == pkg
            ensures next[i] in packages[..k]
          {
            assert k == |init|;
            assert init == packages[..k];
          }
        }
      }
    }
  }

  /** The position of the first occurrence of `x` in `s`. */
  function FirstIndex(s: seq<string>, x: string): (k: nat)
    requires x in s
    ensures k < |s| && s[k] == x
    ensures forall j :: 0 <= j < k ==> s[j] != x
  {
    if s[0] == x then 0 else 1 + FirstIndex(s[1..], x)
  }

  /** Only one of two packages can precede every occurrence of the other. */
  lemma PrecedesAsymmetric(packages: seq<string>, a: string, b: string)
    requires a in packages
    requires Precedes(packages, a, b)
    ensures !Precedes(packages, b, a)
  {
    var k := FirstIndex(packages, a);
    forall k' | 0 <= k' < k
      ensures packages[k'] != b
    {
      assert packages[..k'] == packages[..k][..k'];
    }
    assert b !in packages[..k];
  }

  /** The candidate list is determined by its description: two lists that both satisfy
      `CandidatesOf` for the same input and checker are equal. */
  lemma CandidatesUnique(c1: seq<string>, c2: seq<string>, packages: seq<string>, outdated: Checker)
    requires CandidatesOf(c1, packages, outdated)
    requires CandidatesOf(c2, packages, outdated)
    ensures c1 == c2
  {
    forall i | 0 <= i < |c1| && i < |c2|
      ensures c1[i] == c2[i]
    {
      CandidatesAgreeAt(c1, c2, packages, outdated, i);
    }
    if |c1| < |c2| {
      NextIsNew(c1, c2);
      assert false;
    } else if |c2| < |c1| {
      NextIsNew(c2, c1);
      assert false;
    }
  }

  /** The element after a proper prefix of a duplicate-free list is not in the prefix. */
  lemma NextIsNew(short: seq<string>, long: seq<string>)
    requires |short| < |long| && NoDuplicates(long)
    requires forall i :: 0 <= i < |short| ==> short[i] == long[i]
    ensures long[|short|] !in short
  {
  }

  lemma CandidatesAgreeAt(c1: seq<string>, c2: seq<string>, packages: seq<string>, outdated: Checker, i: nat)
    requires CandidatesOf(c1, packages, outdated)
    requires CandidatesOf(c2, packages, outdated)
    requires i < |c1| && i < |c2|
    ensures c1[i] == c2[i]
    decreases i
  {
    forall h | 0 <= h < i
      ensures c1[h] == c2[h]
    {
      CandidatesAgreeAt(c1, c2, packages, outdated, h);
    }
    var a, b := c1[i], c2[i];
    assert a in c2 && b in c1;
    var ja :| 0 <= ja < |c2| && c2[ja] == a;
    var jb :| 0 <= jb < |c1| && c1[jb] == b;
    if ja < i || jb < i {
      assert false;
    }
    if a != b {
      PrecedesAsymmetric(packages, a, b);
      assert false;
    }
  }

  /** Whether the mandatory-package gate blocks: some mandatory package is not a candidate. */
  predicate Gated(mandatory: seq<string>, candidates: seq<string>)
  {
    |mandatory| > 0 && !(forall m :: m in mandatory ==> m in candidates)
  }

  /** Whether every per-candidate upgrade exits successfully. */
  predicate UpgradesPass(candidates: seq<string>, incompatible: bool, cargo: Oracle)
  {
    forall i :: 0 <= i < |candidates| ==> cargo(UpgradeArgs(Some(candidates[i]), incompatible)).exitCode == 0
  }

  /** The upgrade loop: one upgrade per candidate, in order; the first that fails
      stops the loop with the failing command. */
  function UpgradeLoop(candidates: seq<string>, incompatible: bool, cargo: Oracle): (p: Progress<()>)
    ensures p.steps <= |candidates|
    decreases |candidates|
  {
    if |candidates| == 0 then Progress(0, Success(()))
    else
      var n := |candidates| - 1;
      var before := UpgradeLoop(candidates[..n], incompatible, cargo);
      if before.result.Failure? then before
      else
        var args := UpgradeArgs(Some(candidates[n]), incompatible);
        Progress(n + 1, if cargo(args).exitCode != 0 then Failure(CommandFailed(args)) else Success(()))
  }

  /** The commands of the upgrade loop: the upgrades it got through.
      `UpgradeEachOutcome` and `UpgradeEachFailure` state how it ends. */
  function UpgradeEach(candidates: seq<string>, incompatible: bool, cargo: Oracle): Trace<()>
  {
    var p := UpgradeLoop(candidates, incompatible, cargo);
    Trace(Upgrades(candidates[..p.steps], incompatible), p.result)
  }

  /** The upgrade loop upgrades every candidate exactly when every upgrade succeeds. */
  lemma {:induction false} UpgradeEachOutcome(candidates: seq<string>, incompatible: bool, cargo: Oracle)
    ensures var p := UpgradeLoop(candidates, incompatible, cargo);
            && (p.result.Success? <==> UpgradesPass(candidates, incompatible, cargo))
            && (p.result.Success? ==> p.steps == |candidates|)
    decreases |candidates|
  {
    if |candidates| > 0 {
      var n := |candidates| - 1;
      var init := candidates[..n];
      var before := UpgradeLoop(init, incompatible, cargo);
      if before.result.Failure? {
        UpgradeEachFailure(init, incompatible, cargo);
        assert init[before.steps - 1] == candidates[before.steps - 1];
      } else {
        UpgradeEachOutcome(init, incompatible, cargo);
        assert candidates == init + [candidates[n]];
      }
    }
  }

  /** A failing upgrade loop stops right after the first upgrade that fails, with that
      command's error. */
  lemma {:induction false} UpgradeEachFailure(candidates: seq<string>, incompatible: bool, cargo: Oracle)
    ensures var p := UpgradeLoop(candidates, incompatible, cargo);
            p.result.Failure? ==>
              && 0 < p.steps
              && UpgradesPass(candidates[..p.steps - 1], incompatible, cargo)
              && p.result.error == CommandFailed(UpgradeArgs(Some(candidates[p.steps - 1]), incompatible))
              && cargo(UpgradeArgs(Some(candidates[p.steps - 1]), incompatible)).exitCode != 0
    decreases |candidates|
  {
    if |candidates| > 0 {
      var n := |candidates| - 1;
      var init := candidates[..n];
      var before := UpgradeLoop(init, incompatible, cargo);
      if before.result.Failure? {
        UpgradeEachFailure(init, incompatible, cargo);
        assert init[..before.steps - 1] == candidates[..before.steps - 1];
        assert init[before.steps - 1] == candidates[before.steps - 1];
      } else {
        UpgradeEachOutcome(init, incompatible, cargo);
        assert candidates[..n] == init;
      }
    }
  }

  /** Upgrade-all mode: one bulk check, then one global upgrade if it reports anything. */
  function UpgradeAll(incompatible: bool, outdated: Checker, cargo: Oracle): (t: Trace<bool>)
    // exactly one check, the bulk one; at most one command after it, the global upgrade
    ensures 1 <= |t.commands| <= 2 && t.commands[0] == OutdatedArgs(None)
    ensures |t.commands| == 2 <==> outdated(None) == Success(true)
    ensures |t.commands| == 2 ==> t.commands[1] == UpgradeArgs(None, incompatible)
    // the answer is the check's answer, unless a command fails
    ensures t.result.Success? ==> t.result == outdated(None)
    ensures t.result.Failure? <==>
              || outdated(None).Failure?
              || (outdated(None) == Success(true) && cargo(UpgradeArgs(None, incompatible)).exitCode != 0)
  {
    var bulk := OutdatedArgs(None);
    match outdated(None)
    case Failure(e) => Trace([bulk], Failure(e))
    case Success(false) => Trace([bulk], Success(false))
    case Success(true) =>
      var args := UpgradeArgs(None, incompatible);
      if cargo(args).exitCode != 0 then Trace([bulk, args], Failure(CommandFailed(args)))
      else Trace([bulk, args], Success(true))
  }

  /** Selective mode: check each package, gate on the mandatory packages, then upgrade
      each candidate. */
  function UpgradeSelected(packages: seq<string>, incompatible: bool, mandatory: seq<string>,
                           outdated: Checker, cargo: Oracle): (t: Trace<bool>)
    // a run that completes has checked every package first, in order
    ensures t.result.Success? ==> |t.commands| >= |packages| && t.commands[..|packages|] == Checks(packages)
    // a pull request is asked for only after at least one upgrade
    ensures t.result == Success(true) ==> |t.commands| > |packages|
  {
    CollectOutcome(packages, outdated);
    var collected := Collect(packages, outdated);
    assert collected.result.Success? ==> packages[..|packages|] == packages;
    match collected.result
    case Failure(e) => Trace(collected.commands, Failure(e))
    case Success(candidates) =>
      if Gated(mandatory, candidates) then Trace(collected.commands, Success(false))
      else
        UpgradeEachOutcome(candidates, incompatible, cargo);
        var upgraded := UpgradeEach(candidates, incompatible, cargo);
        Trace(collected.commands + upgraded.commands,
              if upgraded.result.Failure? then Failure(upgraded.result.error) else Success(|candidates| > 0))
  }

  /** A failing per-package check ends selective mode with an error before any
      upgrade: only checks of the input packages, in order, were issued. */
  lemma SelectiveCheckFailureUpgradesNothing(packages: seq<string>, incompatible: bool, mandatory: seq<string>,
                                             outdated: Checker, cargo: Oracle)
    requires !ChecksPass(packages, outdated)
    ensures var t := UpgradeSelected(packages, incompatible, mandatory, outdated, cargo);
            && t.result.Failure?
            && |t.commands| <= |packages|
            && t.commands == Checks(packages[..|t.commands|])
            && 0 < |t.commands|
            && ChecksPass(packages[..|t.commands| - 1], outdated)
            && outdated(Some(packages[|t.commands| - 1])) == Failure(t.result.error)
  {
    CollectOutcome(packages, outdated);
  }

  /** The mandatory-package gate: when some mandatory package is not a candidate, every
      package is checked, nothing is upgraded and no pull request is asked for. */
  lemma MandatoryGateBlocksUpgrades(packages: seq<string>, incompatible: bool, mandatory: seq<string>,
                                    outdated: Checker, cargo: Oracle, candidates: seq<string>)
    requires ChecksPass(packages, outdated)
    requires CandidatesOf(candidates, packages, outdated)
    requires |mandatory| > 0 && exists m :: m in mandatory && m !in candidates
    ensures UpgradeSelected(packages, incompatible, mandatory, outdated, cargo) == Trace(Checks(packages), Success(false))
  {
    CollectOutcome(packages, outdated);
    CollectCandidates(packages, outdated);
    CandidatesUnique(candidates, CollectLoop(packages, outdated).result.value, packages, outdated);
    assert packages[..|packages|] == packages;
  }

  /** Past the gate, selective mode checks every package, then upgrades every candidate
      once, in order, and asks for a pull request exactly when there was a candidate;
      an upgrade that fails ends it with that command's error. */
  lemma SelectiveUpgradesEachCandidate(packages: seq<string>, incompatible: bool, mandatory: seq<string>,
                                       outdated: Checker, cargo: Oracle, candidates: seq<string>)
    requires ChecksPass(packages, outdated)
    requires CandidatesOf(candidates, packages, outdated)
    requires !Gated(mandatory, candidates)
    ensures var t := UpgradeSelected(packages, incompatible, mandatory, outdated, cargo);
            && (UpgradesPass(candidates, incompatible, cargo) ==>
                  t == Trace(Checks(packages) + Upgrades(candidates, incompatible), Success(|candidates| > 0)))
            && (!UpgradesPass(candidates, incompatible, cargo) ==>
                  && t.result.Failure?
                  && exists m :: 0 < m <= |candidates|
                                 && t.commands == Checks(packages) + Upgrades(candidates[..m], incompatible)
                                 && t.result.error == CommandFailed(UpgradeArgs(Some(candidates[m - 1]), incompatible))
                                 && UpgradesPass(candidates[..m - 1], incompatible, cargo)
                                 && cargo(UpgradeArgs(Some(candidates[m - 1]), incompatible)).exitCode != 0)
  {
    CollectOutcome(packages, outdated);
    CollectCandidates(packages, outdated);
    CandidatesUnique(candidates, CollectLoop(packages, outdated).result.value, packages, outdated);
    assert packages[..|packages|] == packages;
    UpgradeEachOutcome(candidates, incompatible, cargo);
    UpgradeEachFailure(candidates, incompatible, cargo);
    var p := UpgradeLoop(candidates, incompatible, cargo);
    if p.result.Success? {
      assert candidates[..|candidates|] == candidates;
    } else {
      var m := p.steps;
      assert UpgradeSelected(packages, incompatible, mandatory, outdated, cargo).commands
          == Checks(packages) + Upgrades(candidates[..m], incompatible);
    }
  }

  /** `runUpgrade`: the mode decides which planner runs; both consult the outdated
      check that `checkOutdated` performs against the tool's answers. */
  function RunUpgrade(packages: seq<string>, upgradeAll: bool, incompatible: bool, mandatory: seq<string>,
                      cargo: Oracle, parse: Parser): (t: Trace<bool>)
    ensures upgradeAll ==> t == UpgradeAll(incompatible, OutdatedChecker(cargo, parse), cargo)
    ensures !upgradeAll ==> t == UpgradeSelected(packages, incompatible, mandatory, OutdatedChecker(cargo, parse), cargo)
  {
    var outdated := OutdatedChecker(cargo, parse);
    if upgradeAll then UpgradeAll(incompatible, outdated, cargo)
    else UpgradeSelected(packages, incompatible, mandatory, outdated, cargo)
  }

  /** Only input packages the checker reported outdated are collected. */
  lemma CollectedAreReported(packages: seq<string>, outdated: Checker)
    requires CollectLoop(packages, outdated).result.Success?
    ensures forall p :: p in CollectLoop(packages, outdated).result.value ==> p in packages && Reported(p, outdated)
  {
    CollectCandidates(packages, outdated);
  }

  /** Every command the selective planner issues after its checks upgrades one of the
      input packages that the checker reported outdated. */
  lemma SelectiveUpgradesOnlyReportedInputs(packages: seq<string>, incompatible: bool, mandatory: seq<string>,
                                            outdated: Checker, cargo: Oracle, k: nat)
    requires |packages| <= k < |UpgradeSelected(packages, incompatible, mandatory, outdated, cargo).commands|
    ensures exists p :: p in packages && Reported(p, outdated)
                        && UpgradeSelected(packages, incompatible, mandatory, outdated, cargo).commands[k]
                           == UpgradeArgs(Some(p), incompatible)
  {
    var t := UpgradeSelected(packages, incompatible, mandatory, outdated, cargo);
    CollectOutcome(packages, outdated);
    var collected := CollectLoop(packages, outdated);
    if collected.result.Failure? {
      assert false;
    }
    assert packages[..collected.steps] == packages;
    CollectedAreReported(packages, outdated);
    var c := collected.result.value;
    var p := UpgradeLoop(c, incompatible, cargo);
    var upgrades := Upgrades(c[..p.steps], incompatible);
    assert t.commands == Checks(packages) + upgrades;
    var i := k - |packages|;
    assert t.commands[k] == upgrades[i];
    assert c[..p.steps][i] in c;
  }

  /** With every decoded dependency named, upgrade-all mode issues only the bulk check
      and never asks for a pull request. */
  lemma UpgradeAllNeverUpgradesNamedDependencies(packages: seq<string>, incompatible: bool, mandatory: seq<string>,
                                                  cargo: Oracle, parse: Parser)
    requires forall l :: l in OutputLines(cargo(OutdatedArgs(None)).stdout) && parse(l).Some? ==>
               forall d :: d in parse(l).value.dependencies ==> d.name.Some?
    ensures RunUpgrade(packages, true, incompatible, mandatory, cargo, parse).commands == [OutdatedArgs(None)]
    ensures RunUpgrade(packages, true, incompatible, mandatory, cargo, parse).result != Success(true)
  {
    BulkCheckNeverOutdated(cargo(OutdatedArgs(None)), parse);
  }
}

=== FILE: workflow.dfy ===
/** The action's entry point (`main`): read the configuration, plan and run the
    upgrades, and publish a pull request only when the planner asks for one. */
module Workflow {
  import opened Wrappers
  import opened Strings
  import opened Cargo
  import opened Outdated
  import opened ActionConfig
  import opened Upgrade
  import opened PullRequest

  /** The build check run before publishing. */
  const CheckArgs: Args := ["check"]

  /** `main`: the commands issued and, when the run completes, the publish request
      (`None` when nothing is published). `mandatory` is supplied separately, since
      the configuration has no field for it. */
  function RunAction(inputs: Inputs, mandatory: seq<string>, cargo: Oracle, parse: Parser, check: CheckRun,
                     openPrs: seq<OpenPullRequest>, commits: int -> int, changed: Option<seq<string>>)
    : (t: Trace<Option<PublishRequest>>)
    ensures var config := ReadActionConfig(inputs);
            var plan := RunUpgrade(config.packages, config.upgradeAll, config.incompatible, mandatory, cargo, parse);
            // an error during planning ends the run with that error
            && (plan.result.Failure? ==> t == Trace(plan.commands, Failure(plan.result.error)))
            // no upgrade: no build check and nothing published
            && (plan.result == Success(false) ==> t == Trace(plan.commands, Success(None)))
            // otherwise the build check follows the planner's commands
            && (plan.result == Success(true) ==>
                  && t.commands == plan.commands + [CheckArgs]
                  && t.result == Success(BuildPullRequest(config.branchName, config.prTitle, Some(config.notifiedUsers),
                                                          check, openPrs, commits, changed)))
    ensures t.result.Success? && t.result.value.Some? ==>
              var config := ReadActionConfig(inputs);
              && t.result.value.value.title == config.prTitle
              && t.result.value.value.head == config.branchName
              && t.result.value.value.body == PullRequestBody(Some(config.notifiedUsers), check)
              && |t.commands| > 0 && t.commands[|t.commands| - 1] == CheckArgs
  {
    var config := ReadActionConfig(inputs);
    Publish(config, RunUpgrade(config.packages, config.upgradeAll, config.incompatible, mandatory, cargo, parse),
            check, openPrs, commits, changed)
  }

  /** What follows the planner: the build check and the publish step, run only when
      the planner asks for a pull request. */
  function Publish(config: Config, plan: Trace<bool>, check: CheckRun,
                   openPrs: seq<OpenPullRequest>, commits: int -> int, changed: Option<seq<string>>)
    : (t: Trace<Option<PublishRequest>>)
    ensures plan.result.Failure? ==> t == Trace(plan.commands, Failure(plan.result.error))
    ensures plan.result == Success(false) ==> t == Trace(plan.commands, Success(None))
    ensures plan.result == Success(true) ==> t.commands == plan.commands + [CheckArgs] && t.result.Success?
    ensures plan.result == Success(true) ==>
              t.result == Success(BuildPullRequest(config.branchName, config.prTitle, Some(config.notifiedUsers),
                                                   check, openPrs, commits, changed))
    ensures t.result.Success? && t.result.value.Some? ==>
              && t.result.value.value.title == config.prTitle
              && t.result.value.value.head == config.branchName
              && t.result.value.value.body == PullRequestBody(Some(config.notifiedUsers), check)
              && |t.commands| > 0 && t.commands[|t.commands| - 1] == CheckArgs
  {
    match plan.result
    case Failure(e) => Trace(plan.commands, Failure(e))
    case Success(false) => Trace(plan.commands, Success(None))
    case Success(true) =>
      Trace(plan.commands + [CheckArgs],
            Success(BuildPullRequest(config.branchName, config.prTitle, Some(config.notifiedUsers), check,
                                     openPrs, commits, changed)))
  }

  /** The body mentions users exactly when the `notified_users` input is non-empty, and
      the mentions read back as `@` before each comma-separated entry of that input. */
  lemma MentionsFollowInput(inputs: Inputs)
    ensures var users := ReadActionConfig(inputs).notifiedUsers;
            && (MentionLine(Some(users)) != "" <==> inputs.notifiedUsers != "")
            && (inputs.notifiedUsers != "" ==>
                  Split(MentionLine(Some(users))[|MentionIntro|..], ',') == Mentions(CommaList(inputs.notifiedUsers)))
  {
    var users := ReadActionConfig(inputs).notifiedUsers;
    if inputs.notifiedUsers != "" {
      MentionsRoundTrip(users);
    }
  }

  /** The scenario of an upgrade-all run whose bulk check reports something, whose
      upgrade succeeds, with no pull request open on the branch, no users to notify
      and a passing build check: the bot asks to publish a pull request titled with
      the bare prefix whose body is the template alone. By `BulkCheckNeverOutdated`,
      the bulk check can only report something when some decoded dependency has no
      name, which real output of the tool never has: the scenario is what the code
      would do, not a run that occurs in practice. */
  lemma UpgradeAllPublishesPlainRequest(inputs: Inputs, mandatory: seq<string>, cargo: Oracle, parse: Parser,
                                        check: CheckRun, openPrs: seq<OpenPullRequest>, commits: int -> int,
                                        changed: Option<seq<string>>)
    requires inputs.packages == "*" && inputs.notifiedUsers == "" && check.succeeded
    requires OutdatedChecker(cargo, parse)(None) == Success(true)
    requires cargo(UpgradeArgs(None, inputs.incompatible == "true")).exitCode == 0
    requires forall i :: 0 <= i < |openPrs| ==> openPrs[i].headRef != ReadActionConfig(inputs).branchName
    ensures var t := RunAction(inputs, mandatory, cargo, parse, check, openPrs, commits, changed);
            && t.commands == [OutdatedArgs(None), UpgradeArgs(None, inputs.incompatible == "true"), CheckArgs]
            && t.result.Success? && t.result.value.Some?
            && t.result.value.value.title == TitlePrefix
            && t.result.value.value.body == BodyTemplate
  {
    var config := ReadActionConfig(inputs);
    assert config.upgradeAll && config.notifiedUsers == [] && config.prTitle == TitlePrefix;
    var upgrade := UpgradeArgs(None, config.incompatible);
    var plan := RunUpgrade(config.packages, config.upgradeAll, config.incompatible, mandatory, cargo, parse);
    assert plan == UpgradeAll(config.incompatible, OutdatedChecker(cargo, parse), cargo);
    assert plan == Trace([OutdatedArgs(None), upgrade], Success(true));
    var request := BuildPullRequest(config.branchName, config.prTitle, Some([]), check, openPrs, commits, changed);
    assert request.Some?;
    PlainBody(Some([]), check);
    assert RunAction(inputs, mandatory, cargo, parse, check, openPrs, commits, changed)
        == Publish(config, plan, check, openPrs, commits, changed);
  }
}

=== FILE: wrappers.dfy ===
/** Optional values and outcomes: `Option` for what a JavaScript expression may leave
    `undefined` or `null`, and `Result` for a step that either yields a value or
    rejects with an error. */
module Wrappers {

  datatype Option<+T> = None | Some(value: T) {

    /** JavaScript's nullish coalescing `x ?? fallback`. */
    function Coalesce(fallback: T): T {
      match this
      case Some(v) => v
      case None => fallback
    }
  }

  datatype Result<+R, +E> = Success(value: R) | Failure(error: E)
}
